=== FILE: README.md ===
# Semgrep VS Code extension: streaming search, as a Dafny model

This project models the client side of the extension's streaming search
protocol and the small pure logic around it.

- **Session** (`session.dfy`, `session_runs.dfy`). This is `handleSearch` and `searchLoop` in `src/search.ts`, written as a transition system.
  - The state holds the shared `env.scanID`, the phase of each search's loop, the requests sent to the language server, and the messages posted to the webview.
  - The events are `Start(params)`, `Response(id, batch or undefined)`, `Projected(id)` and `ProjectionFailed(id)`.
  - `Projected` stands for the `await` of line 91 on a non-empty batch. Its projection opens documents (line 23), so other events can run between the supersession guard (line 85) and the post and poll (lines 92-108).
  - A non-empty batch's projection can reject: a document cannot be opened (line 23), or the workspace's folder list is empty, which is truthy, so line 25 reads a folder that is not there. The rejected await of line 91 ends the loop with no post and no poll, and `env.scanID` keeps naming the search (`FailedProjectionLeavesScanSet`, `StoppedCurrentStaysUntilNewerStart`).
  - An empty batch is projected without I/O. `Promise.all([])` settles in the same turn of the event loop, so its guard, post and the clearing of `env.scanID` (lines 85-102) are one `Response` event.
- **Projection** (`projection.dfy`). This is `viewResultsOfSearchResults`. Each server match becomes an untouched view match, and the file structure and order are kept.
- **Webview dispatch** (`webview.dfy`). This is `handleMessageFromWebview` and `sendMessageToWebview` in `src/views/webview.ts`. `messages.dfy` holds the message shapes for both directions.
- **Match entry** (`match_entry.dfy`). This is the search-ui `SearchResultEntry`: the visible-match filter and the fix and dismiss buttons of a rendered match. `build.mjs` (lines 24-32) builds search-ui as a bundle of its own. `webview.ts` loads the webview-ui bundle instead (lines 70-92), whose entry component has neither filter nor buttons.
- **Results panel** (`summary.dfy`, `decimal.dfy`). This is the webview-ui `SearchResults`: the match and file counts, the summary text, and one entry per file.
- **Query form** (`query_form.dfy`). This is the webview-ui `TopSection`: the fix normalisation, the search message, and the Enter and change handlers.
- **End to end** (`end_to_end.dfy`). These properties join the pieces: the webview-ui form to the dispatch, a posted batch to the webview-ui panel's summary, and a projected batch to the search-ui filter.

Foreign calls are parameters, not code:
- `getPreviewChunks`, `path.relative`, `Uri.fsPath` and the workspace folder are fields of a `Workspace` value.
- The language client and the resolved view are two flags. The view flag stands for two conditions: `env.provider` is set, and the provider's `_view` is resolved (webview.ts line 45).
- The server's answers are `Response` events.

Some behaviour of the code that the proofs make explicit:
- The guard drops a batch only when `env.scanID` is non-null. Once a newer search has finished and cleared `env.scanID`, an older search's late batch is posted (`StaleBatchAfterNewerFinished`).
- Line 101 clears `env.scanID` whatever it names. By then it names either nothing or the loop's own search, because an empty batch's projection does not wait. So a search stays current after every event until it ends itself or a newer search starts, while its own loop keeps streaming (`CurrentUntilOwnEndOrNewerStart`).
- While `env.scanID` names a newer search, an older search posts at most one more batch. It posts that batch only if it had already passed the guard (`SupersededPostsAtMostOnce`, `OlderSearchPostsAtMostOnce`). The window does occur: a batch whose projection is in flight when a newer search starts is still posted, and its `searchOngoing` follows the newer `/semgrep/search` (`BatchPostedAfterNewerStart`). This is the window the TODO at lines 79-84 points at. The consequence the TODO names is not covered; see "Left out".
- A `webview/semgrep/replace` message has no case in `handleMessageFromWebview`, so that dispatch ignores it (`Webview.ReplaceFallsThrough`).
- The code posts each batch on its own (`ThreeBatchStream`). It keeps no result store and no concluded flag. The end of a stream is `env.scanID` being cleared and the loop stopping.
- Only a rendered match has buttons, and the entry re-renders after each click, so fixed and dismissed stay mutually exclusive (`ClicksKeepFlagsExclusive`). No code checks this; the re-render is an assumption (see "Left out").

## Model

| member | source | states |
|---|---|---|
| Projection.ProjectMatches | src/search.ts:30-43 | one view match per server match, in order; each shows its server match with the editor's preview chunks and is neither fixed nor dismissed |
| Projection.ProjectResult | src/search.ts:21-45 | a file's view keeps its uri, takes the path relative to the first workspace folder ("" when the folder list is undefined), and has one untouched view match per server match |
| Projection.ViewResultsOf | src/search.ts:17-52 | the batch is tagged with the loop's scanID, has one location per server location in order with equal match counts, and every match is untouched |
| Projection.UnprojectProjection | src/search.ts:27-50 | the server batch can be read back from its view, so the projection loses no location, match, range or fix |
| Webview.HandleMessageFromWebview | src/views/webview.ts:20-41 | print messages are logged, search messages become `semgrep.search` with the pattern and fix copied and language null, all other commands are ignored |
| Webview.SearchDispatchRoundTrip | src/views/webview.ts:29-38 | a search message and the parameters it is dispatched with determine each other |
| Webview.ReplaceFallsThrough | src/views/webview.ts:21-40 | a `webview/semgrep/replace` message, whatever it carries, matches no case of the dispatch and is ignored |
| Webview.PostToWebview | src/views/webview.ts:44-46 | a message is appended to the webview's messages exactly when a view is resolved, and nothing earlier changes |
| Session.Step | src/search.ts:66-124 | every event appends at most one request and at most one post, never rewrites earlier ones, and never revives a stopped loop |
| Session.StartClaimsCurrent | src/search.ts:116-122 | starting a search sets `env.scanID` to its scanID and sets its loop waiting, then sends exactly one `/semgrep/search` when there is a client, and posts nothing |
| Session.SupersededBatchDropped | src/search.ts:85-87 | a batch for a search other than the one a non-null `env.scanID` names is dropped: no post, no request, `env.scanID` unchanged, loop stopped |
| Session.GuardAdmits | src/search.ts:85-97 | with a null `env.scanID`, or one naming the loop, the batch is not dropped, whatever search it belongs to: a non-empty batch goes on to be projected, an empty one is posted at once |
| Session.UndefinedResponseStops | src/search.ts:71-73 | an undefined response arises only without a client, and stops the loop with no post, no request and no change to `env.scanID` |
| Session.ProjectedBatchPosted | src/search.ts:89-95 | a projected batch is posted exactly once when a view is resolved, tagged with the loop's scanID |
| Session.EmptyBatchConcludes | src/search.ts:97-102 | an empty batch that passes the guard clears `env.scanID`, stops the loop and sends no further request |
| Session.NonEmptyBatchPollsOnce | src/search.ts:103-108 | once its projection completes, a non-empty batch sends exactly one `/semgrep/searchOngoing` when there is a client, and the same loop waits again with the `env.scanID` unchanged |
| Session.StoppedIsFinal | src/search.ts:71-102 | once a loop has returned, no event for its search can happen again |
| Session.StepClearsOnlyOwnScan | src/search.ts:85-116 | `env.scanID` moves only when a start points it at the new search, or when the search it names clears it |
| Session.FailedProjectionStops | src/search.ts:91 | a rejected projection ends the loop with no post, no poll and `env.scanID` unchanged, so it still names the search |
| Session.LiveLoopCanProceed | src/search.ts:66-110 | the model has no dead state: a waiting loop can take the server's answer with a client or the undefined result without one, and a projecting loop can complete or fail |
| SessionRuns.RunInv | src/search.ts:85-122 | after any trace, `env.scanID` and every request and post belong to a started search; nothing is requested without a client or posted without a view |
| SessionRuns.StoppedStaysStopped | src/search.ts:71-102 | a stopped search stays stopped through any later trace |
| SessionRuns.PollsCountProjections | src/search.ts:97-108 | over any trace, with a client a search sends exactly one `/semgrep/searchOngoing` per batch whose projection completes, and none for dropped or empty batches; without a client it sends none |
| SessionRuns.SupersededPostsAtMostOnce | src/search.ts:75-95 | while `env.scanID` names a newer search, an older one posts at most one more batch, and only if it had already passed the guard |
| SessionRuns.CurrentUntilOwnEndOrNewerStart | src/search.ts:85-116 | over any trace with no start and no empty batch of search b, a current search b stays current after every event, whatever b's own loop and the other loops do |
| SessionRuns.OlderSearchPostsAtMostOnce | src/search.ts:75-116 | while a newer search streams, until it ends or another search starts, an older one posts at most the one batch it had already let through the guard |
| SessionRuns.CurrentBatchContinues | src/search.ts:89-108 | a non-empty batch of the current search is posted, one poll is sent, and nothing else changes |
| SessionRuns.CurrentBatchEnds | src/search.ts:85-102 | in one response event, the empty batch of the current search is posted, `env.scanID` is cleared and the loop stops |
| SessionRuns.ThreeBatchStream | src/search.ts:112-124 | two non-empty batches and the empty one give three per-batch posts, one search request, two polls, and a cleared `env.scanID` |
| SessionRuns.StoppedCurrentStaysUntilNewerStart | src/search.ts:85-116 | a current search whose loop has stopped without clearing `env.scanID` stays current through any trace without a start |
| SessionRuns.FailedProjectionLeavesScanSet | src/search.ts:91-116 | a search whose first non-empty batch fails to project posts nothing, polls nothing, stops, and leaves `env.scanID` naming it |
| SessionRuns.BatchPostedAfterNewerStart | src/search.ts:79-118 | a batch whose projection is in flight when a newer search starts is posted while `env.scanID` names the newer search, and its `searchOngoing` is sent after the newer `/semgrep/search` |
| SessionRuns.StaleBatchAfterNewerFinished | src/search.ts:85-95 | after a newer search finishes and clears `env.scanID`, an older search's late batch, empty or not, is posted |
| MatchEntry.Visible | src/search-ui/src/components/SearchResults/SearchResultEntry.tsx:18-20 | the rendered list is no longer than the file's matches and holds no fixed or dismissed match |
| MatchEntry.VisibleExactly | src/search-ui/src/components/SearchResults/SearchResultEntry.tsx:18-20 | a match is rendered exactly when it is in the file's list and neither fixed nor dismissed |
| MatchEntry.VisibleAppend | src/search-ui/src/components/SearchResults/SearchResultEntry.tsx:18-20 | the filter keeps the original order: filtering a concatenation concatenates the filtered parts |
| MatchEntry.VisibleCount | src/search-ui/src/components/SearchResults/SearchResultEntry.tsx:18-20 | filtering is non-destructive: rendered plus hidden matches are all the matches |
| MatchEntry.RenderedIndex | src/search-ui/src/components/SearchResults/SearchResultEntry.tsx:31-34 | the j-th rendered match is a visible match of the file's list, with exactly j rendered matches before it |
| MatchEntry.OnFix | src/search-ui/src/components/SearchResults/SearchResultEntry.tsx:35-46 | with no fix text the click changes nothing, sends nothing and does not notify; with fix text it sends one replace message with the result's uri and the match's range and fix, then notifies |
| MatchEntry.OnDismiss | src/search-ui/src/components/SearchResults/SearchResultEntry.tsx:47-50 | dismissing always notifies the store and never sends a message, and the file keeps all its matches |
| MatchEntry.FixMarksOnlyTarget | src/search-ui/src/components/SearchResults/SearchResultEntry.tsx:35-46 | a fix with fix text sets only the clicked match's isFixed, and exactly that match leaves the rendered list |
| MatchEntry.DismissMarksOnlyTarget | src/search-ui/src/components/SearchResults/SearchResultEntry.tsx:47-50 | a dismiss sets only the clicked match's isDismissed, and exactly that match leaves the rendered list |
| MatchEntry.ClicksKeepFlagsExclusive | src/search-ui/src/components/SearchResults/SearchResultEntry.tsx:29-52 | since only rendered matches have buttons, no click makes a match both fixed and dismissed |
| Decimal.NatToString | src/webview-ui/src/components/SearchResults/SearchResults.tsx:28 | a number renders as a non-empty string of decimal digits with no leading zero |
| Decimal.ParseNatToString | src/webview-ui/src/components/SearchResults/SearchResults.tsx:28 | reading the rendered digits back gives the number |
| Summary.NumMatchesCountsAll | src/webview-ui/src/components/SearchResults/SearchResults.tsx:16-19 | the fold from 0 equals the number of all matches of all files, fixed and dismissed ones included |
| Summary.NumMatchesAppend | src/webview-ui/src/components/SearchResults/SearchResults.tsx:16-19 | the match count is additive over files |
| Summary.ReplacingMatchKeepsCounts | src/webview-ui/src/components/SearchResults/SearchResults.tsx:16-20 | the counts ignore the flags: replacing any match by another, such as the same match fixed or dismissed, changes neither the match count nor the file count |
| Summary.Render | src/webview-ui/src/components/SearchResults/SearchResults.tsx:16-32 | an undefined state renders nothing; otherwise the summary gives the total match count and the location count, and there is one entry per location in order |
| Summary.EmptySummary | src/webview-ui/src/components/SearchResults/SearchResults.tsx:16-28 | no locations read "0 matches in 0 files" |
| Summary.SummaryTextInjective | src/webview-ui/src/components/SearchResults/SearchResults.tsx:28 | different counts never give the same summary text |
| QueryForm.FixValue | src/webview-ui/src/components/TopSection/TopSection.tsx:13 | the empty fix becomes null; any other text, whitespace included, is kept unchanged |
| QueryForm.FixValueRoundTrip | src/webview-ui/src/components/TopSection/TopSection.tsx:13 | the normalisation loses no fix text, and every fix other than "" is the value of its own text |
| QueryForm.SearchQuery | src/webview-ui/src/components/TopSection/TopSection.tsx:12-19 | the message is tagged `webview/semgrep/search` and carries the pattern verbatim and the normalised fix |
| QueryForm.Handle | src/webview-ui/src/components/TopSection/TopSection.tsx:27-49 | only Enter sends, key presses keep the stored values, and an edit changes only its own field's stored value |
| QueryForm.EnterSearches | src/webview-ui/src/components/TopSection/TopSection.tsx:27-45 | Enter in the pattern field uses that field's value with the stored fix; Enter in the autofix field uses the stored pattern with that field's value |
| QueryForm.OnlyEnterSends | src/webview-ui/src/components/TopSection/TopSection.tsx:27-49 | keys other than Enter, and edits, send nothing |
| QueryForm.StoredValuesAreLastEdits | src/webview-ui/src/components/TopSection/TopSection.tsx:32-48 | after any input sequence, the stored pattern and fix are the last values each field reported through onChange, or "" |
| EndToEnd.EnterReachesSearchCommand | src/views/webview.ts:29-38 | Enter in either form field reaches the extension as `semgrep.search` with the form's pattern, the normalised fix and a null language |
| EndToEnd.PostedBatchSummary | src/webview-ui/src/components/SearchResults/SearchResults.tsx:16-28 | the summary for a posted batch counts the server's matches and files of that batch |
| EndToEnd.FreshBatchAllRendered | src/search.ts:38-39 | every match of a freshly projected batch passes the search-ui visible-match filter |

## Left out

- `src/commands.ts` is left out. It holds command registration, login and logout, the AST view and the demo file. Its `semgrep.search` handler (lines 189-218) is a non-streaming search path that never calls `handleSearch`.
- Replace-all and the edit applicator are left out. They live in `searchResultsTree.ts`, which is not part of this model.
- `getPreviewChunks`, `openTextDocument`, `path.relative` and `Uri.fsPath` are given functions, not code. The preview text is therefore uninterpreted. The document contents are fixed across a trace.
- The language client and the resolved view are flags that stay constant during a trace. Reconnecting a client and resolving a view late are not modelled.
- Session.LiveLoopCanProceed: the code has no timeout. A loop waiting at line 107 or 118 with a client resumes only when the server answers, so a silent server leaves it suspended forever. The lemma only shows the model has no dead state. A rejected projection at line 91 does end the loop (`ProjectionFailed`). It ends it silently, and `env.scanID` keeps naming a search that will never post again.
- A `null` reply from the server is left out; the model's answers are batches or `undefined`. A superseded loop returns at line 86 before it reads the reply. Otherwise the code throws at line 49 when reading `results.locations`, and the rejected await of line 91 ends the loop with `env.scanID` still set, as `ProjectionFailed` does.
- SessionRuns.SupersededPostsAtMostOnce: the consequence the TODO at lines 79-84 names is not modelled. The server serves all searches through one cursor, so a stale `searchOngoing` sent after a new `/semgrep/search` can be answered with the new search's results, which the stale loop then drops. The model delivers each response to the loop that asked for it.
- The warning pop-ups are left out. `env.client` and `env.provider` are getters (src/env.ts:87-103). Each shows a warning message on every read while its field is unset: no language client, or no provider. The reads happen at search.ts lines 92, 107 and 118. An unresolved `_view` behind a set provider raises no warning.
- The host of the search-ui bundle, and search-ui's `MatchesSummary`, are not part of this model. So the model does not follow a fix or dismiss click from the search-ui entry to the extension, or to a panel's counts.
- Transport errors are left out. A rejected `sendRequest` is an unhandled promise rejection in the code, and it has no modelled effect.
- Where a scanID comes from is left out: no modelled file generates one. The model assumes scanIDs are unique, so `Start` is enabled only for a new id.
- The caller of `handleSearch` is left out. No modelled file calls it. The `SearchParams` that webview.ts builds (lines 33-37) has no `scanID`, and the `semgrep.search` command it runs is the commands.ts handler. The model takes each start to run as its own task, never from an already queued microtask. The one-event handling of an empty batch relies on that.
- The shape of the parameters `handleSearch` forwards to the server (line 120) is left out. Their type lives in lspExtensions.ts, which is not part of this model, and the session keeps them as an uninterpreted `LspParams`.
- Counts are JavaScript numbers. The decimal rendering covers only counts below 10^21; from there on a template literal writes exponent notation.
- `handleSearch` tests `searchParams != null` (line 117) only after dereferencing it (line 116), so the test never fails. A null argument would throw at line 116. The model takes the argument as present.
- Inside one batch's projection, `Promise.all` runs the per-file and per-match work concurrently. That work is one `Projected` event here, because its order does not affect the result.
- The entry's expand/collapse state, the badge, the text-box components, `build.mjs` and the HTML/CSP templates are presentational and left out.
- `searchOngoing` is sent without parameters. The model tags each poll with its loop's scanID only to count polls per search; the server sees no such tag.
- `onStoreChange` is recorded only as a flag saying it was called. Its effect on the store is left out.
- MatchEntry.ClicksKeepFlagsExclusive: the model takes the entry to re-render after each `onStoreChange`, so every click acts on the current rendered list. In the code each button's closure holds the match of the last render and sets its flag in place. Without that re-render a fixed match keeps its buttons, and a later dismiss would set both flags.
- The console output of the print branch is recorded as a log action carrying the message. The exact console formatting is left out.
- `src/env.ts` (configuration and global state) and `src/views/AiChatProvidert.ts` (the AI chat view, which delivers examples on a timer) are left out.

=== FILE: decimal.dfy ===
/** JavaScript's rendering of a non-negative integer below 10^21 in a
    template literal: its decimal digits, most significant first, without
    leading zeros. From 10^21 on JavaScript switches to exponent notation
    ("1e+21"); the counts rendered here are taken to stay below that. */
module Decimal {

  predicate IsDigit(c: char) {
    '0' <= c <= '9'
  }

  function DigitChar(d: nat): (c: char)
    requires d < 10
    ensures IsDigit(c) && c as int - '0' as int == d
  {
    ('0' as int + d) as char
  }

  function DigitValue(c: char): (d: nat)
    requires IsDigit(c)
    ensures d < 10 && DigitChar(d) == c
  {
    c as int - '0' as int
  }

  /** The decimal digits of `n`. */
  function NatToString(n: nat): (s: string)
    ensures |s| > 0
    ensures forall i :: 0 <= i < |s| ==> IsDigit(s[i])
    ensures |s| > 1 ==> s[0] != '0'
    decreases n
  {
    if n < 10 then [DigitChar(n)] else NatToString(n / 10) + [DigitChar(n % 10)]
  }

  /** The number a string of decimal digits denotes. */
  function ParseNat(s: string): nat
    requires forall i :: 0 <= i < |s| ==> IsDigit(s[i])
    decreases |s|
  {
    if |s| == 0 then 0 else ParseNat(s[..|s| - 1]) * 10 + DigitValue(s[|s| - 1])
  }

  /** Reading the rendered digits back gives the number: the rendering
      loses nothing. */
  lemma {:induction false} ParseNatToString(n: nat)
    ensures ParseNat(NatToString(n)) == n
    decreases n
  {
    var s := NatToString(n);
    if n >= 10 {
      assert s[..|s| - 1] == NatToString(n / 10);
      ParseNatToString(n / 10);
    }
  }

  /** Different numbers render differently. */
  lemma NatToStringInjective(a: nat, b: nat)
    requires NatToString(a) == NatToString(b)
    ensures a == b
  {
    ParseNatToString(a);
    ParseNatToString(b);
  }
}

=== FILE: end_to_end.dfy ===
/** Properties that connect the modelled pieces: the query form of the
    webview-ui bundle to the extension's dispatch, and the session's posts
    to that bundle's results panel and to the search-ui visible-match
    filter. */
module EndToEnd {
  import opened Results
  import opened Messages
  import Projection
  import Webview
  import QueryForm
  import MatchEntry
  import Summary

  /** Enter in either field of the form reaches the extension as a
      `semgrep.search` command whose pattern and fix are the ones the form
      used, an empty fix field meaning no fix, and whose language is unset. */
  lemma EnterReachesSearchCommand(form: QueryForm.Form, field: QueryForm.Field, value: string)
    ensures var (_, sent) := QueryForm.Handle(form, QueryForm.KeyPress(field, "Enter", value));
            var pattern := if field == QueryForm.PatternField then value else form.pattern;
            var fix := if field == QueryForm.FixField then value else form.fix;
            && sent.Some?
            && Webview.HandleMessageFromWebview(sent.value)
                 == Webview.ExecuteCommand(Webview.SearchCommandId,
                                           Webview.SearchParams(pattern, None, QueryForm.FixValue(fix)))
  {
    QueryForm.EnterSearches(form, field, value);
  }

  lemma {:induction false} ProjectedCount(w: Projection.Workspace, rs: seq<SearchResult>)
    ensures Summary.NumMatches(Projection.ProjectResults(w, rs)) == CountSearchMatches(rs)
    decreases |rs|
  {
    var vs := Projection.ProjectResults(w, rs);
    if |rs| > 0 {
      assert vs == [vs[0]] + vs[1..];
      Summary.NumMatchesAppend([vs[0]], vs[1..]);
      ProjectedCount(w, rs[1..]);
      Summary.NumMatchesSingle(vs[0]);
    }
  }

  /** The panel's "N matches in M files" for a posted batch counts the
      server's matches and files of that batch. */
  lemma PostedBatchSummary(w: Projection.Workspace, scanID: string, batch: SearchResults)
    ensures var v := Projection.ViewResultsOf(w, scanID, batch);
            Summary.Render(Some(Summary.State(v)))
              == Some(Summary.Rendering(
                   Summary.SummaryText(CountSearchMatches(batch.locations), |batch.locations|),
                   v.locations))
  {
    var v := Projection.ViewResultsOf(w, scanID, batch);
    ProjectedCount(w, batch.locations);
    Summary.NumMatchesCountsAll(v.locations);
  }

  /** A freshly projected match is neither fixed nor dismissed, so the
      visible-match filter keeps all of them. */
  lemma FreshMatchesAllRendered(ms: seq<ViewMatch>)
    requires forall i :: 0 <= i < |ms| ==> Projection.Untouched(ms[i])
    ensures MatchEntry.Visible(ms) == ms
  {
    if |ms| > 0 {
      FreshMatchesAllRendered(ms[1..]);
    }
  }

  /** Every match of every file of a freshly projected batch passes the
      search-ui visible-match filter. */
  lemma FreshBatchAllRendered(w: Projection.Workspace, scanID: string, batch: SearchResults, i: nat)
    requires i < |batch.locations|
    ensures var v := Projection.ViewResultsOf(w, scanID, batch);
            MatchEntry.Visible(v.locations[i].matches) == v.locations[i].matches
  {
    FreshMatchesAllRendered(Projection.ViewResultsOf(w, scanID, batch).locations[i].matches);
  }
}

=== FILE: match_entry.dfy ===
/** One file's entry in the search webview
    (src/search-ui/src/components/SearchResults/SearchResultEntry.tsx): the
    matches it renders, and the fix and dismiss buttons of a rendered match.

    The component mutates the clicked match object in place, and that object
    is the one held in `result.matches`; here a click returns the updated
    result together with the message it sends and whether it notifies the
    store. Expanding and collapsing the entry is not modelled. */
module MatchEntry {
  import opened Results
  import opened Messages

  /** A fixed or dismissed match is not rendered. */
  predicate Hidden(m: ViewMatch) {
    m.isFixed || m.isDismissed
  }

  /** The matches the entry renders: the filter of lines 18-20. */
  function Visible(ms: seq<ViewMatch>): (r: seq<ViewMatch>)
    ensures |r| <= |ms|
    ensures forall i :: 0 <= i < |r| ==> !Hidden(r[i])
  {
    if |ms| == 0 then []
    else (if Hidden(ms[0]) then [] else [ms[0]]) + Visible(ms[1..])
  }

  /** The rendered matches are exactly the matches that are neither fixed
      nor dismissed. */
  lemma {:induction false} VisibleExactly(ms: seq<ViewMatch>, m: ViewMatch)
    ensures m in Visible(ms) <==> m in ms && !Hidden(m)
    decreases |ms|
  {
    if |ms| > 0 {
      VisibleExactly(ms[1..], m);
      assert ms == [ms[0]] + ms[1..];
    }
  }

  /** The filter keeps the order of the list: filtering a concatenation is
      concatenating the filtered parts. */
  lemma {:induction false} VisibleAppend(a: seq<ViewMatch>, b: seq<ViewMatch>)
    ensures Visible(a + b) == Visible(a) + Visible(b)
    decreases |a|
  {
    if |a| == 0 {
      assert a + b == b;
    } else {
      assert (a + b)[1..] == a[1..] + b;
      VisibleAppend(a[1..], b);
    }
  }

  /** The number of matches the filter removes. */
  function CountHidden(ms: seq<ViewMatch>): nat
  {
    if |ms| == 0 then 0 else (if Hidden(ms[0]) then 1 else 0) + CountHidden(ms[1..])
  }

  /** Hidden matches are not lost: rendered plus hidden is all of them. */
  lemma {:induction false} VisibleCount(ms: seq<ViewMatch>)
    ensures |Visible(ms)| + CountHidden(ms) == |ms|
    decreases |ms|
  {
    if |ms| > 0 {
      VisibleCount(ms[1..]);
    }
  }

  /** The position in `result.matches` of the `j`-th rendered match. */
  function RenderedIndex(ms: seq<ViewMatch>, j: nat): (k: nat)
    requires j < |Visible(ms)|
    ensures k < |ms| && !Hidden(ms[k])
    ensures ms[k] == Visible(ms)[j]
    ensures |Visible(ms[..k])| == j
    decreases |ms|
  {
    var head := if Hidden(ms[0]) then [] else [ms[0]];
    assert Visible(ms) == head + Visible(ms[1..]);
    if !Hidden(ms[0]) && j == 0 then
      assert ms[..0] == [];
      0
    else
      var k' := RenderedIndex(ms[1..], j - |head|);
      assert ms[..k' + 1][1..] == ms[1..][..k'];
      assert Visible(ms[..k' + 1]) == head + Visible(ms[1..][..k']);
      k' + 1
  }

  /** Hiding the `j`-th rendered match removes exactly it from the rendered
      list; the other rendered matches keep their order. */
  lemma HideRemovesRendered(ms: seq<ViewMatch>, j: nat, m: ViewMatch)
    requires j < |Visible(ms)| && Hidden(m)
    ensures var k := RenderedIndex(ms, j);
            Visible(ms[k := m]) == Visible(ms)[..j] + Visible(ms)[j + 1..]
  {
    var k := RenderedIndex(ms, j);
    assert ms == ms[..k] + [ms[k]] + ms[k + 1..];
    assert ms[k := m] == ms[..k] + [m] + ms[k + 1..];
    VisibleAppend(ms[..k] + [ms[k]], ms[k + 1..]);
    VisibleAppend(ms[..k], [ms[k]]);
    VisibleAppend(ms[..k] + [m], ms[k + 1..]);
    VisibleAppend(ms[..k], [m]);
    assert Visible([m]) == [] by { assert [m][1..] == []; }
    assert Visible([ms[k]]) == [ms[k]] by { assert [ms[k]][1..] == []; }
    assert Visible(ms) == Visible(ms[..k]) + [ms[k]] + Visible(ms[k + 1..]);
  }

  /** A match carries fix text exactly when `match.searchMatch.fix` is
      truthy in JavaScript: present and not the empty string. */
  predicate HasFix(m: ViewMatch) {
    m.searchMatch.fix.Some? && m.searchMatch.fix.value != ""
  }

  /** The outcome of a click: the entry's result after it, the message sent
      to the extension if any, and whether `onStoreChange` was called. */
  datatype Click = Click(result: ViewResult, sent: Option<WebviewToExtension>, storeChanged: bool)

  /** `onFix` of the `j`-th rendered match (lines 35-46). */
  function OnFix(result: ViewResult, j: nat): (c: Click)
    requires j < |Visible(result.matches)|
    ensures var m := Visible(result.matches)[j];
            && (!HasFix(m) ==> c == Click(result, None, false))
            && (HasFix(m) ==>
                  && c.sent == Some(Replace(result.uri, m.searchMatch.range, m.searchMatch.fix.value))
                  && c.storeChanged)
    ensures c.result.uri == result.uri && c.result.path == result.path
    ensures |c.result.matches| == |result.matches|
  {
    var k := RenderedIndex(result.matches, j);
    var m := result.matches[k];
    if HasFix(m) then
      Click(result.(matches := result.matches[k := m.(isFixed := true)]),
            Some(Replace(result.uri, m.searchMatch.range, m.searchMatch.fix.value)),
            true)
    else
      Click(result, None, false)
  }

  /** `onDismiss` of the `j`-th rendered match (lines 47-50): always marks it
      dismissed and notifies the store, never sends a message. */
  function OnDismiss(result: ViewResult, j: nat): (c: Click)
    requires j < |Visible(result.matches)|
    ensures c.sent == None && c.storeChanged
    ensures c.result.uri == result.uri && c.result.path == result.path
    ensures |c.result.matches| == |result.matches|
  {
    var k := RenderedIndex(result.matches, j);
    var m := result.matches[k];
    Click(result.(matches := result.matches[k := m.(isDismissed := true)]), None, true)
  }

  /** A fix that sends a replace message marks exactly the clicked match
      fixed: every other match, and every other field of the clicked one,
      is unchanged, and the match leaves the rendered list. */
  lemma FixMarksOnlyTarget(result: ViewResult, j: nat)
    requires j < |Visible(result.matches)| && HasFix(Visible(result.matches)[j])
    ensures var k := RenderedIndex(result.matches, j);
            var after := OnFix(result, j).result.matches;
            && after[k] == result.matches[k].(isFixed := true)
            && (forall i :: 0 <= i < |after| && i != k ==> after[i] == result.matches[i])
            && Visible(after) == Visible(result.matches)[..j] + Visible(result.matches)[j + 1..]
  {
    var k := RenderedIndex(result.matches, j);
    HideRemovesRendered(result.matches, j, result.matches[k].(isFixed := true));
  }

  /** A dismiss marks exactly the clicked match dismissed, and the match
      leaves the rendered list while staying in `result.matches`. */
  lemma DismissMarksOnlyTarget(result: ViewResult, j: nat)
    requires j < |Visible(result.matches)|
    ensures var k := RenderedIndex(result.matches, j);
            var after := OnDismiss(result, j).result.matches;
            && after[k] == result.matches[k].(isDismissed := true)
            && (forall i :: 0 <= i < |after| && i != k ==> after[i] == result.matches[i])
            && Visible(after) == Visible(result.matches)[..j] + Visible(result.matches)[j + 1..]
  {
    var k := RenderedIndex(result.matches, j);
    HideRemovesRendered(result.matches, j, result.matches[k].(isDismissed := true));
  }

  /** No match is both fixed and dismissed. */
  predicate FlagsExclusive(ms: seq<ViewMatch>) {
    forall i :: 0 <= i < |ms| ==> !(ms[i].isFixed && ms[i].isDismissed)
  }

  /** Only rendered matches have buttons, so a click never sets the second
      flag of a match: fixed and dismissed stay mutually exclusive. */
  lemma ClicksKeepFlagsExclusive(result: ViewResult, j: nat)
    requires j < |Visible(result.matches)| && FlagsExclusive(result.matches)
    ensures FlagsExclusive(OnFix(result, j).result.matches)
    ensures FlagsExclusive(OnDismiss(result, j).result.matches)
  {
  }
}

=== FILE: messages.dfy ===
/** The messages that cross the boundary between the extension and the
    search webview. Their TypeScript union types live in
    `interface/interface.ts`, which is not part of this model; each
    constructor below stands for one `command` tag used by the modelled code. */
module Messages {
  import opened Results

  const PrintCommand := "webview/semgrep/print"
  const SearchCommand := "webview/semgrep/search"
  const ReplaceCommand := "webview/semgrep/replace"
  const ResultsCommand := "extension/semgrep/results"

  /** Webview -> extension. The replace message's `fix` field is called
      `replacement` here, since Dafny gives one name one type across constructors. */
  datatype WebviewToExtension =
    | Print(message: string)
    | Search(pattern: string, fix: Option<string>)
    | Replace(uri: string, range: Range, replacement: string)
  {
    /** The `command` field the webview puts on the message. */
    function Command(): string {
      match this
      case Print(_) => PrintCommand
      case Search(_, _) => SearchCommand
      case Replace(_, _, _) => ReplaceCommand
    }
  }

  /** Extension -> webview: one batch of search results. */
  datatype ExtensionToWebview = ResultsMessage(results: ViewResults)
  {
    function Command(): string {
      ResultsCommand
    }
  }

  /** The command tag identifies the kind of message: dispatching on the tag
      and dispatching on the constructor are the same thing. */
  lemma CommandIdentifiesKind(a: WebviewToExtension, b: WebviewToExtension)
    ensures a.Command() == b.Command() <==>
              (a.Print? && b.Print?) || (a.Search? && b.Search?) || (a.Replace? && b.Replace?)
  {
    assert PrintCommand[16] == 'p' && SearchCommand[16] == 's' && ReplaceCommand[16] == 'r';
  }
}

=== FILE: projection.dfy ===
/** The projection of one batch of server results into the records the
    webview displays (`viewResultsOfSearchResults`, src/search.ts:17-52).

    The editor calls it makes are taken as a `Workspace` of given functions:
    `getPreviewChunks` (defined in `searchResultsTree.ts`, not part of this
    model), `path.relative`, `Uri.fsPath`, and the first workspace folder.
    A document that cannot be opened (line 23) makes the projection reject;
    the session models that as a failed projection. */
module Projection {
  import opened Results

  datatype Chunks = Chunks(before: string, inside: string, after: string)

  datatype Workspace = Workspace(
    folder: Option<string>,
    fsPath: string -> string,
    relative: (string, string) -> string,
    preview: (string, Range) -> Chunks)
  {
    /** The first workspace folder's path, or "" when `workspaceFolders` is
        undefined (lines 24-26). An empty folder list is truthy, so line 25
        then throws; that case is the session's failed projection, not a
        value here. */
    function RootPath(): string {
      folder.GetOr("")
    }
  }

  /** A match as the webview first receives it: not fixed, not dismissed. */
  predicate Untouched(v: ViewMatch) {
    !v.isFixed && !v.isDismissed
  }

  /** `v` shows `m` of file `uri` with the preview the editor gives for it. */
  predicate Shows(w: Workspace, uri: string, m: SearchMatch, v: ViewMatch) {
    && v.searchMatch == m
    && w.preview(uri, m.range) == Chunks(v.before, v.inside, v.after)
  }

  function ProjectMatch(w: Workspace, uri: string, m: SearchMatch): ViewMatch {
    var c := w.preview(uri, m.range);
    ViewMatch(c.before, c.inside, c.after, false, false, m)
  }

  /** The per-match map of one file, in server order. */
  function ProjectMatches(w: Workspace, uri: string, ms: seq<SearchMatch>): (vs: seq<ViewMatch>)
    ensures |vs| == |ms|
    ensures forall i :: 0 <= i < |vs| ==> Shows(w, uri, ms[i], vs[i]) && Untouched(vs[i])
  {
    if |ms| == 0 then [] else [ProjectMatch(w, uri, ms[0])] + ProjectMatches(w, uri, ms[1..])
  }

  function ProjectResult(w: Workspace, r: SearchResult): (v: ViewResult)
    ensures v.uri == r.uri
    ensures v.path == w.relative(w.RootPath(), w.fsPath(r.uri))
    ensures |v.matches| == |r.matches|
    ensures forall i :: 0 <= i < |v.matches| ==>
              Shows(w, r.uri, r.matches[i], v.matches[i]) && Untouched(v.matches[i])
  {
    ViewResult(r.uri, w.relative(w.RootPath(), w.fsPath(r.uri)), ProjectMatches(w, r.uri, r.matches))
  }

  function ProjectResults(w: Workspace, rs: seq<SearchResult>): (vs: seq<ViewResult>)
    ensures |vs| == |rs|
    ensures forall i :: 0 <= i < |vs| ==> vs[i] == ProjectResult(w, rs[i])
  {
    if |rs| == 0 then [] else [ProjectResult(w, rs[0])] + ProjectResults(w, rs[1..])
  }

  /** `viewResultsOfSearchResults`: one view location per server location, in
      the same order, each with as many matches as the server sent, every
      match untouched, and the whole batch tagged with `scanID`. */
  function ViewResultsOf(w: Workspace, scanID: string, results: SearchResults): (v: ViewResults)
    ensures v.scanID == scanID
    ensures |v.locations| == |results.locations|
    ensures forall i :: 0 <= i < |v.locations| ==>
              && v.locations[i].uri == results.locations[i].uri
              && |v.locations[i].matches| == |results.locations[i].matches|
    ensures forall i, j :: 0 <= i < |v.locations| && 0 <= j < |v.locations[i].matches| ==>
              && Shows(w, results.locations[i].uri, results.locations[i].matches[j], v.locations[i].matches[j])
              && Untouched(v.locations[i].matches[j])
  {
    ViewResults(scanID, ProjectResults(w, results.locations))
  }

  /** Forgets what the projection added: the server's batch behind a view batch. */
  function Unproject(v: ViewResults): (r: SearchResults)
    ensures |r.locations| == |v.locations|
  {
    SearchResults(seq(|v.locations|, i requires 0 <= i < |v.locations| =>
      SearchResult(v.locations[i].uri,
        seq(|v.locations[i].matches|, j requires 0 <= j < |v.locations[i].matches| =>
          v.locations[i].matches[j].searchMatch))))
  }

  /** The projection loses nothing of the server's batch: it is structure
      preserving, and the batch can be read back from the view. */
  lemma UnprojectProjection(w: Workspace, scanID: string, results: SearchResults)
    ensures Unproject(ViewResultsOf(w, scanID, results)) == results
  {
    var v := ViewResultsOf(w, scanID, results);
    var r := Unproject(v);
    forall i | 0 <= i < |r.locations|
      ensures r.locations[i] == results.locations[i]
    {
      assert r.locations[i].matches == results.locations[i].matches;
    }
    assert r.locations == results.locations;
  }
}

=== FILE: query_form.dfy ===
/** The query form of the webview
    (src/webview-ui/src/components/TopSection/TopSection.tsx): a pattern
    field and an autofix field whose Enter key sends a search message. */
module QueryForm {
  import opened Results
  import opened Messages

  /** The component's state: the last values the two fields reported
      through `onChange`. Both start empty. */
  datatype Form = Form(pattern: string, fix: string)

  const Initial := Form("", "")

  datatype Field = PatternField | FixField

  /** What the user does to a field. A key press carries the field's value
      at that moment (`e.currentTarget.value`). */
  datatype Input =
    | KeyPress(field: Field, key: string, value: string)
    | Change(field: Field, value: string)

  /** `fix === "" ? null : fix` (line 13). */
  function FixValue(fix: string): (r: Option<string>)
    ensures r.None? <==> fix == ""
    ensures r.Some? ==> r.value == fix
  {
    if fix == "" then None else Some(fix)
  }

  /** The text a fix value came from. */
  function FixText(fix: Option<string>): string {
    fix.GetOr("")
  }

  /** No fix text is lost: an empty field and an absent fix are the same
      thing, and every other text, blank ones included, is kept as typed. */
  lemma FixValueRoundTrip(fix: string, o: Option<string>)
    ensures FixText(FixValue(fix)) == fix
    ensures o != Some("") ==> FixValue(FixText(o)) == o
  {
  }

  /** `searchQuery` (lines 12-19): the message it sends. */
  function SearchQuery(pattern: string, fix: string): (m: WebviewToExtension)
    ensures m.Command() == SearchCommand
    ensures m.Search? && m.pattern == pattern && m.fix == FixValue(fix)
  {
    Search(pattern, FixValue(fix))
  }

  /** One input: the form's next state and the message sent, if any. Only
      Enter sends, and only edits change the stored values. */
  function Handle(form: Form, input: Input): (r: (Form, Option<WebviewToExtension>))
    ensures r.1.Some? <==> input.KeyPress? && input.key == "Enter"
    ensures input.KeyPress? ==> r.0 == form
    ensures input.Change? ==> r.0.pattern == (if input.field == PatternField then input.value else form.pattern)
    ensures input.Change? ==> r.0.fix == (if input.field == FixField then input.value else form.fix)
  {
    match input
    case KeyPress(PatternField, key, value) =>
      (form, if key == "Enter" then Some(SearchQuery(value, form.fix)) else None)
    case KeyPress(FixField, key, value) =>
      (form, if key == "Enter" then Some(SearchQuery(form.pattern, value)) else None)
    case Change(PatternField, value) => (form.(pattern := value), None)
    case Change(FixField, value) => (form.(fix := value), None)
  }

  /** Enter in the pattern field searches for that field's current value
      with the stored fix (lines 27-30); Enter in the autofix field searches
      for the stored pattern with that field's current value (lines 42-45).
      Key presses never change the stored values. */
  lemma EnterSearches(form: Form, field: Field, value: string)
    ensures Handle(form, KeyPress(field, "Enter", value)).0 == form
    ensures field == PatternField ==>
              Handle(form, KeyPress(field, "Enter", value)).1 == Some(Search(value, FixValue(form.fix)))
    ensures field == FixField ==>
              Handle(form, KeyPress(field, "Enter", value)).1 == Some(Search(form.pattern, FixValue(value)))
  {
  }

  /** Keys other than Enter, and edits, send nothing. */
  lemma OnlyEnterSends(form: Form, input: Input)
    requires input.Change? || input.key != "Enter"
    ensures Handle(form, input).1 == None
  {
  }

  /** The form after a sequence of inputs. */
  function RunInputs(form: Form, inputs: seq<Input>): Form
    decreases |inputs|
  {
    if |inputs| == 0 then form else RunInputs(Handle(form, inputs[0]).0, inputs[1..])
  }

  /** The value a field last reported through `onChange`, or `initial`. */
  function LastChange(inputs: seq<Input>, field: Field, initial: string): string
    decreases |inputs|
  {
    if |inputs| == 0 then initial
    else if inputs[|inputs| - 1].Change? && inputs[|inputs| - 1].field == field
    then inputs[|inputs| - 1].value
    else LastChange(inputs[..|inputs| - 1], field, initial)
  }

  lemma {:induction false} RunInputsSnoc(form: Form, inputs: seq<Input>, i: Input)
    ensures RunInputs(form, inputs + [i]) == Handle(RunInputs(form, inputs), i).0
    decreases |inputs|
  {
    if |inputs| == 0 {
      assert ([] + [i])[1..] == [];
    } else {
      assert (inputs + [i])[1..] == inputs[1..] + [i];
      RunInputsSnoc(Handle(form, inputs[0]).0, inputs[1..], i);
    }
  }

  /** The stored values are the fields' last edits: Enter in one field
      searches with the value last typed into the other, which may lag a
      key press the other field has not yet reported (the comment of lines
      32-34). */
  lemma {:induction false} StoredValuesAreLastEdits(inputs: seq<Input>)
    ensures RunInputs(Initial, inputs).pattern == LastChange(inputs, PatternField, "")
    ensures RunInputs(Initial, inputs).fix == LastChange(inputs, FixField, "")
    decreases |inputs|
  {
    if |inputs| > 0 {
      var init := inputs[..|inputs| - 1];
      assert inputs == init + [inputs[|inputs| - 1]];
      StoredValuesAreLastEdits(init);
      RunInputsSnoc(Initial, init, inputs[|inputs| - 1]);
    }
  }
}

=== FILE: results.dfy ===
/** Values exchanged between the language server, the extension and the
    search webview: the server's search results (one group of matches per
    file) and the view's enriched copy of them.

    The TypeScript declarations of these records live in `lspExtensions.ts`
    and `webview-ui/src/types/results.ts`, which are not part of this model;
    the shapes below are the fields the modelled code reads and writes. */
module Results {

  /** JavaScript's `T | null` (and `T | undefined`). */
  datatype Option<+T> = None | Some(value: T) {
    function GetOr(default: T): T {
      match this
      case Some(v) => v
      case None => default
    }
  }

  /** An LSP position: zero-based line and character offset. */
  datatype Position = Position(line: nat, character: nat)

  datatype Range = Range(start: Position, end: Position)

  /** One match reported by the server, with its optional suggested fix. */
  datatype SearchMatch = SearchMatch(range: Range, fix: Option<string>)

  /** The matches of one file. */
  datatype SearchResult = SearchResult(uri: string, matches: seq<SearchMatch>)

  /** One batch of the search stream; an empty `locations` ends the stream. */
  datatype SearchResults = SearchResults(locations: seq<SearchResult>)

  /** A match as the webview holds it: preview text around the match and the
      two user-set flags. */
  datatype ViewMatch = ViewMatch(
    before: string,
    inside: string,
    after: string,
    isFixed: bool,
    isDismissed: bool,
    searchMatch: SearchMatch)

  /** The matches of one file as the webview holds them. */
  datatype ViewResult = ViewResult(uri: string, path: string, matches: seq<ViewMatch>)

  /** One batch as sent to the webview, tagged with the search it belongs to. */
  datatype ViewResults = ViewResults(scanID: string, locations: seq<ViewResult>)

  /** The number of matches in a batch of server results. */
  function CountSearchMatches(locations: seq<SearchResult>): nat
  {
    if |locations| == 0 then 0
    else |locations[0].matches| + CountSearchMatches(locations[1..])
  }
}

=== FILE: session.dfy ===
/** The streaming search session of the extension (`handleSearch` and
    `searchLoop`, src/search.ts:58-124), as a transition system.

    The extension keeps one shared field, `env.scanID`, naming the search
    the user started last. Each search runs its own chain of `searchLoop`
    calls; a chain is always suspended at one of two awaits:
      - waiting for the server's answer to `/semgrep/search` or
        `/semgrep/searchOngoing` (line 118 or 107), resumed by a `Response`;
      - waiting for the projection of a non-empty batch that passed the
        supersession guard (line 91), resumed by `Projected`, or ended by
        `ProjectionFailed`; projecting a non-empty batch opens documents
        (line 23), a real wait, and it rejects when a document cannot be
        opened or when the workspace's folder list is empty (line 25 then
        reads a folder that is not there).
    An empty batch that passes the guard is projected without any I/O:
    `Promise.all([])` (lines 48-50) settles within the same turn of the
    event loop, so its post and the clearing of `env.scanID` (lines 92-102)
    follow the guard with nothing in between and belong to the `Response`
    event. Every event is handled atomically, so the interleavings the event
    loop allows between two awaits are exactly the orders of the events. */
module Session {
  import opened Results
  import opened Messages
  import Projection
  import Webview

  /** Where one search's loop is suspended. Only a non-empty batch is ever
      being projected. */
  datatype Phase =
    | AwaitingResponse
    | Projecting(batch: SearchResults)
    | Stopped

  /** A request sent to the language server, with the search that sent it.
      `/semgrep/searchOngoing` carries no argument on the wire; `scanID`
      records which loop issued it. */
  datatype Request =
    | SearchRequest(scanID: string, params: LspParams)
    | OngoingRequest(scanID: string)

  /** The parameters `handleSearch` forwards to `/semgrep/search` (line 120).
      Their type is declared in lspExtensions.ts, which is not part of this
      model; the session never inspects them, so they are kept as the
      serialised request the client sends. */
  datatype LspParams = LspParams(json: string)

  /** The argument of `handleSearch`: the search's id and the server request. */
  datatype StartParams = StartParams(scanID: string, lspParams: LspParams)

  /** The part of the extension's `Environment` the session reads and writes. */
  datatype Env = Env(
    scanID: Option<string>,
    loops: map<string, Phase>,
    requests: seq<Request>,
    posted: seq<ExtensionToWebview>,
    hasClient: bool,
    viewResolved: bool)

  /** The extension before any search. */
  function Init(hasClient: bool, viewResolved: bool): Env {
    Env(None, map[], [], [], hasClient, viewResolved)
  }

  datatype Event =
    | Start(params: StartParams)
    | Response(scanID: string, results: Option<SearchResults>)
    | Projected(scanID: string)
    | ProjectionFailed(scanID: string)

  /** The search an event concerns. */
  function Target(e: Event): string {
    match e
    case Start(p) => p.scanID
    case Response(id, _) => id
    case Projected(id) => id
    case ProjectionFailed(id) => id
  }

  /** Whether `e` can happen in `s`. Search ids are unique, so a search is
      started once; a response arrives only for a loop waiting for one: the
      server's batch when there is a language client, and `undefined` (the
      value of `env.client?.sendRequest` at lines 107 and 118) when there is
      none; a projection completes only for a loop that started one. */
  predicate Enabled(s: Env, e: Event) {
    match e
    case Start(p) => p.scanID !in s.loops
    case Response(id, r) =>
      id in s.loops && s.loops[id] == AwaitingResponse && (r.Some? <==> s.hasClient)
    case Projected(id) => id in s.loops && s.loops[id].Projecting?
    case ProjectionFailed(id) => id in s.loops && s.loops[id].Projecting?
  }

  /** The guard of line 85: a loop stops when `env.scanID` names another search. */
  predicate Superseded(current: Option<string>, scanID: string) {
    current.Some? && current.value != scanID
  }

  /** Whether `e` is the server's empty batch for search `id`: the only
      event of a search that can clear `env.scanID` (line 101). */
  predicate EndsSearch(e: Event, id: string) {
    e.Response? && e.scanID == id && e.results.Some? && |e.results.value.locations| == 0
  }

  /** The request log after sending `r` through the client, if there is one. */
  function SendRequest(s: Env, r: Request): seq<Request> {
    if s.hasClient then s.requests + [r] else s.requests
  }

  /** One event. An event that is not enabled cannot happen and changes nothing. */
  function Step(w: Projection.Workspace, s: Env, e: Event): (s': Env)
    ensures s'.hasClient == s.hasClient && s'.viewResolved == s.viewResolved
    ensures s.requests <= s'.requests && |s'.requests| <= |s.requests| + 1
    ensures s.posted <= s'.posted && |s'.posted| <= |s.posted| + 1
    ensures s.loops.Keys <= s'.loops.Keys
    ensures forall id :: id in s.loops && s.loops[id] == Stopped ==> s'.loops[id] == Stopped
  {
    if !Enabled(s, e) then s
    else
      match e
      case Start(p) =>
        // line 116 writes `env.scanID` before the request of line 118 is sent
        s.(scanID := Some(p.scanID),
           loops := s.loops[p.scanID := AwaitingResponse],
           requests := SendRequest(s, SearchRequest(p.scanID, p.lspParams)))
      case Response(id, None) =>
        s.(loops := s.loops[id := Stopped])
      case Response(id, Some(batch)) =>
        if Superseded(s.scanID, id) then s.(loops := s.loops[id := Stopped])
        else if |batch.locations| == 0 then
          var message := ResultsMessage(Projection.ViewResultsOf(w, id, batch));
          // line 101 clears `env.scanID` whatever it names; here it is null or `id`
          s.(scanID := None, loops := s.loops[id := Stopped],
             posted := Webview.PostToWebview(s.viewResolved, s.posted, message))
        else s.(loops := s.loops[id := Projecting(batch)])
      case Projected(id) =>
        var message := ResultsMessage(Projection.ViewResultsOf(w, id, s.loops[id].batch));
        s.(loops := s.loops[id := AwaitingResponse],
           posted := Webview.PostToWebview(s.viewResolved, s.posted, message),
           requests := SendRequest(s, OngoingRequest(id)))
      case ProjectionFailed(id) =>
        // the rejected await of line 91 ends the loop; nothing else runs
        s.(loops := s.loops[id := Stopped])
  }

  /** Starting a search sets `env.scanID` to it, sets its loop waiting, and
      sends exactly one `/semgrep/search` (when there is a client), after
      `env.scanID` was written. Nothing is posted. */
  lemma StartClaimsCurrent(w: Projection.Workspace, s: Env, p: StartParams)
    requires Enabled(s, Start(p))
    ensures Step(w, s, Start(p)).scanID == Some(p.scanID)
    ensures Step(w, s, Start(p)).loops == s.loops[p.scanID := AwaitingResponse]
    ensures Step(w, s, Start(p)).requests
              == s.requests + (if s.hasClient then [SearchRequest(p.scanID, p.lspParams)] else [])
    ensures Step(w, s, Start(p)).posted == s.posted
  {
  }

  /** A batch for a search other than the one `env.scanID` names is dropped:
      nothing is posted, no request is sent, `env.scanID` is left alone, and
      the loop stops for good. */
  lemma SupersededBatchDropped(w: Projection.Workspace, s: Env, id: string, batch: SearchResults)
    requires Enabled(s, Response(id, Some(batch)))
    requires s.scanID.Some? && s.scanID.value != id
    ensures Step(w, s, Response(id, Some(batch))) == s.(loops := s.loops[id := Stopped])
  {
  }

  /** The guard rejects only on a non-null `env.scanID`: with a null one, or
      one naming this search, the batch is not dropped. A non-empty batch
      goes on to be projected; an empty one is posted at once. */
  lemma GuardAdmits(w: Projection.Workspace, s: Env, id: string, batch: SearchResults)
    requires Enabled(s, Response(id, Some(batch)))
    requires s.scanID.None? || s.scanID.value == id
    ensures |batch.locations| > 0 ==>
              Step(w, s, Response(id, Some(batch))) == s.(loops := s.loops[id := Projecting(batch)])
    ensures |batch.locations| == 0 ==>
              Step(w, s, Response(id, Some(batch))).posted
                == s.posted + (if s.viewResolved then [ResultsMessage(Projection.ViewResultsOf(w, id, batch))] else [])
  {
  }

  /** An `undefined` response (no client) ends the loop without posting,
      without a request, and without touching `env.scanID`. */
  lemma UndefinedResponseStops(w: Projection.Workspace, s: Env, id: string)
    requires Enabled(s, Response(id, None))
    ensures !s.hasClient
    ensures Step(w, s, Response(id, None)) == s.(loops := s.loops[id := Stopped])
  {
  }

  /** A projected batch is posted exactly once when a view is resolved,
      tagged with its loop's id and carrying the batch's view. */
  lemma ProjectedBatchPosted(w: Projection.Workspace, s: Env, id: string)
    requires Enabled(s, Projected(id))
    ensures Step(w, s, Projected(id)).posted
              == s.posted + (if s.viewResolved
                             then [ResultsMessage(Projection.ViewResultsOf(w, id, s.loops[id].batch))]
                             else [])
  {
  }

  /** An empty batch that passes the guard ends the stream: it is posted,
      `env.scanID` (null or this search's id) is cleared, the loop stops,
      and no further request is sent. */
  lemma EmptyBatchConcludes(w: Projection.Workspace, s: Env, id: string, batch: SearchResults)
    requires Enabled(s, Response(id, Some(batch))) && |batch.locations| == 0
    requires s.scanID.None? || s.scanID.value == id
    ensures Step(w, s, Response(id, Some(batch))).scanID == None
    ensures Step(w, s, Response(id, Some(batch))).loops == s.loops[id := Stopped]
    ensures Step(w, s, Response(id, Some(batch))).requests == s.requests
  {
  }

  /** Once a non-empty batch is projected, exactly one
      `/semgrep/searchOngoing` is sent (when there is a client) and the same
      loop waits for its answer; `env.scanID` is left alone. */
  lemma NonEmptyBatchPollsOnce(w: Projection.Workspace, s: Env, id: string)
    requires Enabled(s, Projected(id))
    ensures Step(w, s, Projected(id)).scanID == s.scanID
    ensures Step(w, s, Projected(id)).loops == s.loops[id := AwaitingResponse]
    ensures Step(w, s, Projected(id)).requests
              == s.requests + (if s.hasClient then [OngoingRequest(id)] else [])
  {
  }

  /** A projection that rejects (a document that cannot be opened, or an
      empty folder list) ends the loop silently: nothing is posted, no
      `/semgrep/searchOngoing` is sent, and `env.scanID` keeps naming the
      search even though it will never post again. */
  lemma FailedProjectionStops(w: Projection.Workspace, s: Env, id: string)
    requires Enabled(s, ProjectionFailed(id))
    ensures Step(w, s, ProjectionFailed(id)) == s.(loops := s.loops[id := Stopped])
  {
  }

  /** `env.scanID` moves only in two ways: a start points it at the new
      search, and only the search it names (or none) can clear it. */
  lemma StepClearsOnlyOwnScan(w: Projection.Workspace, s: Env, e: Event)
    ensures var s' := Step(w, s, e);
            || s'.scanID == s.scanID
            || (e.Start? && s'.scanID == Some(e.params.scanID))
            || (s'.scanID == None && s.scanID == Some(Target(e)))
  {
  }

  /** A stopped loop stays stopped: no event for its search is enabled again. */
  lemma StoppedIsFinal(s: Env, e: Event, id: string)
    requires id in s.loops && s.loops[id] == Stopped
    requires Target(e) == id
    ensures !Enabled(s, e)
  {
  }

  /** The model has no dead state: a loop waiting for the server can take
      its answer (any batch with a client, `undefined` without one), and a
      loop projecting a batch can complete or fail. Whether the server ever
      answers is outside the model. */
  lemma LiveLoopCanProceed(s: Env, id: string, batch: SearchResults)
    requires id in s.loops && s.loops[id] != Stopped
    ensures s.loops[id] == AwaitingResponse ==>
              Enabled(s, Response(id, if s.hasClient then Some(batch) else None))
    ensures s.loops[id].Projecting? ==> Enabled(s, Projected(id)) && Enabled(s, ProjectionFailed(id))
  {
  }
}

=== FILE: session_runs.dfy ===
/** Runs of the session transition system over event traces: what holds
    after any sequence of starts, server responses and projections. */
module SessionRuns {
  import opened Results
  import opened Messages
  import Projection
  import opened Session

  /** The state after the events of `es`, in order. */
  function Run(w: Projection.Workspace, s: Env, es: seq<Event>): (s': Env)
    ensures s.requests <= s'.requests && s.posted <= s'.posted
    ensures |s'.posted| <= |s.posted| + |es|
    decreases |es|
  {
    if |es| == 0 then s else Run(w, Step(w, s, es[0]), es[1..])
  }

  /** Everything the session has sent or posted belongs to a search that was
      started, and `env.scanID` names a started search. With no client nothing
      is requested and with no view nothing is posted. Only non-empty batches
      wait for their projection. */
  predicate Inv(s: Env) {
    && (s.scanID.Some? ==> s.scanID.value in s.loops)
    && (forall id :: id in s.loops && s.loops[id].Projecting? ==> |s.loops[id].batch.locations| > 0)
    && (forall i :: 0 <= i < |s.requests| ==> s.requests[i].scanID in s.loops)
    && (forall i :: 0 <= i < |s.posted| ==> s.posted[i].results.scanID in s.loops)
    && (!s.hasClient ==> s.requests == [])
    && (!s.viewResolved ==> s.posted == [])
  }

  lemma InitInv(hasClient: bool, viewResolved: bool)
    ensures Inv(Init(hasClient, viewResolved))
  {
  }

  lemma StepInv(w: Projection.Workspace, s: Env, e: Event)
    requires Inv(s)
    ensures Inv(Step(w, s, e))
  {
    if Enabled(s, e) {
      match e
      case Start(p) =>
      case Response(id, None) =>
      case Response(id, Some(batch)) =>
        if !Superseded(s.scanID, id) { GuardAdmits(w, s, id, batch); }
      case Projected(id) =>
        ProjectedBatchPosted(w, s, id);
      case ProjectionFailed(id) =>
    }
  }

  lemma {:induction false} RunInv(w: Projection.Workspace, s: Env, es: seq<Event>)
    requires Inv(s)
    ensures Inv(Run(w, s, es))
    decreases |es|
  {
    if |es| > 0 {
      StepInv(w, s, es[0]);
      RunInv(w, Step(w, s, es[0]), es[1..]);
    }
  }

  /** A search that has stopped never resumes, whatever happens next. */
  lemma {:induction false} StoppedStaysStopped(w: Projection.Workspace, s: Env, es: seq<Event>, id: string)
    requires id in s.loops && s.loops[id] == Stopped
    ensures id in Run(w, s, es).loops && Run(w, s, es).loops[id] == Stopped
    decreases |es|
  {
    if |es| > 0 {
      StoppedStaysStopped(w, Step(w, s, es[0]), es[1..], id);
    }
  }

  /* ---- At most one poll per batch ---- */

  /** The number of `/semgrep/searchOngoing` requests search `id` sent. */
  function CountPolls(rs: seq<Request>, id: string): nat
  {
    if |rs| == 0 then 0
    else CountPolls(rs[..|rs| - 1], id) + (if rs[|rs| - 1] == OngoingRequest(id) then 1 else 0)
  }

  /** The number of batches of search `id` whose projection completes when
      the events of `es` happen from `s`; an event that cannot happen is not
      counted. */
  function CountProjected(w: Projection.Workspace, s: Env, es: seq<Event>, id: string): nat
    decreases |es|
  {
    if |es| == 0 then 0
    else (if es[0] == Projected(id) && Enabled(s, es[0]) then 1 else 0)
         + CountProjected(w, Step(w, s, es[0]), es[1..], id)
  }

  lemma CountPollsAppend(rs: seq<Request>, r: Request, id: string)
    ensures CountPolls(rs + [r], id) == CountPolls(rs, id) + (if r == OngoingRequest(id) then 1 else 0)
  {
    assert (rs + [r])[..|rs|] == rs;
  }

  lemma StepPolls(w: Projection.Workspace, s: Env, e: Event, id: string)
    ensures CountPolls(Step(w, s, e).requests, id)
              == CountPolls(s.requests, id)
                 + (if s.hasClient && e == Projected(id) && Enabled(s, e) then 1 else 0)
  {
    if Enabled(s, e) {
      match e
      case Start(p) =>
        StartClaimsCurrent(w, s, p);
        if s.hasClient { CountPollsAppend(s.requests, SearchRequest(p.scanID, p.lspParams), id); }
      case Response(_, _) =>
      case Projected(x) =>
        NonEmptyBatchPollsOnce(w, s, x);
        if s.hasClient { CountPollsAppend(s.requests, OngoingRequest(x), id); }
      case ProjectionFailed(_) =>
    }
  }

  /** With a client, a search sends exactly one `/semgrep/searchOngoing` per
      batch whose projection completes, and none for a batch it drops or
      for the empty batch that ends it; without a client it sends none. */
  lemma {:induction false} PollsCountProjections(w: Projection.Workspace, s: Env, es: seq<Event>, id: string)
    ensures CountPolls(Run(w, s, es).requests, id)
              == CountPolls(s.requests, id) + (if s.hasClient then CountProjected(w, s, es, id) else 0)
    decreases |es|
  {
    if |es| > 0 {
      StepPolls(w, s, es[0], id);
      PollsCountProjections(w, Step(w, s, es[0]), es[1..], id);
    }
  }

  /* ---- Supersession: the staleness window ---- */

  /** The number of posted batches tagged with search `id`. */
  function CountTagged(posted: seq<ExtensionToWebview>, id: string): nat
  {
    if |posted| == 0 then 0
    else CountTagged(posted[..|posted| - 1], id)
         + (if posted[|posted| - 1].results.scanID == id then 1 else 0)
  }

  lemma CountTaggedAppend(posted: seq<ExtensionToWebview>, m: ExtensionToWebview, id: string)
    ensures CountTagged(posted + [m], id) == CountTagged(posted, id) + (if m.results.scanID == id then 1 else 0)
  {
    assert (posted + [m])[..|posted|] == posted;
  }

  /** The batches search `id` may still post without passing the guard
      again: one if it is between the guard and the post, none otherwise. */
  function Window(s: Env, id: string): nat {
    if id in s.loops && s.loops[id].Projecting? then 1 else 0
  }

  /** `env.scanID` names `b` after every event of `es`. */
  predicate CurrentStays(w: Projection.Workspace, s: Env, es: seq<Event>, b: string)
    decreases |es|
  {
    |es| == 0 || (Step(w, s, es[0]).scanID == Some(b) && CurrentStays(w, Step(w, s, es[0]), es[1..], b))
  }

  lemma StepWindow(w: Projection.Workspace, s: Env, e: Event, a: string, b: string)
    requires a != b && s.scanID == Some(b) && Step(w, s, e).scanID == Some(b)
    ensures CountTagged(Step(w, s, e).posted, a) + Window(Step(w, s, e), a)
              <= CountTagged(s.posted, a) + Window(s, a)
  {
    if Enabled(s, e) {
      match e
      case Start(p) =>
        StartClaimsCurrent(w, s, p);
      case Response(id, None) =>
      case Response(id, Some(batch)) =>
        if !Superseded(s.scanID, id) {
          GuardAdmits(w, s, id, batch);
          if s.viewResolved {
            CountTaggedAppend(s.posted, ResultsMessage(Projection.ViewResultsOf(w, id, batch)), a);
          }
        }
      case Projected(id) =>
        ProjectedBatchPosted(w, s, id);
        if s.viewResolved {
          CountTaggedAppend(s.posted, ResultsMessage(Projection.ViewResultsOf(w, id, s.loops[id].batch)), a);
        }
      case ProjectionFailed(_) =>
    }
  }

  /** While `env.scanID` names a newer search `b`, an older search `a` posts
      at most one more batch, and only if it had already passed the guard of
      line 85 when `env.scanID` moved (the window the TODO of lines 79-84
      points at); a search
      waiting for the server posts nothing more. */
  lemma {:induction false} SupersededPostsAtMostOnce(
    w: Projection.Workspace, s: Env, es: seq<Event>, a: string, b: string)
    requires a != b && s.scanID == Some(b) && CurrentStays(w, s, es, b)
    ensures CountTagged(Run(w, s, es).posted, a) + Window(Run(w, s, es), a)
              <= CountTagged(s.posted, a) + Window(s, a)
    decreases |es|
  {
    if |es| > 0 {
      StepWindow(w, s, es[0], a, b);
      SupersededPostsAtMostOnce(w, Step(w, s, es[0]), es[1..], a, b);
    }
  }

  /** A search stays the current one until it ends itself or a newer search
      starts: `env.scanID` names it after every event of a trace with no
      start and no empty batch of its own, whatever its own loop and the
      other searches' loops do meanwhile. */
  lemma {:induction false} CurrentUntilOwnEndOrNewerStart(
    w: Projection.Workspace, s: Env, es: seq<Event>, b: string)
    requires s.scanID == Some(b)
    requires forall i :: 0 <= i < |es| ==> !es[i].Start? && !EndsSearch(es[i], b)
    ensures CurrentStays(w, s, es, b)
    ensures Run(w, s, es).scanID == Some(b)
    decreases |es|
  {
    if |es| > 0 {
      assert !es[0].Start? && !EndsSearch(es[0], b);
      assert Step(w, s, es[0]).scanID == Some(b);
      CurrentUntilOwnEndOrNewerStart(w, Step(w, s, es[0]), es[1..], b);
    }
  }

  /** The staleness window over any trace: while the newer search `b`
      streams, until it ends or another search starts, the older search `a`
      posts at most the one batch it had already let through the guard. */
  lemma OlderSearchPostsAtMostOnce(
    w: Projection.Workspace, s: Env, es: seq<Event>, a: string, b: string)
    requires a != b && s.scanID == Some(b)
    requires forall i :: 0 <= i < |es| ==> !es[i].Start? && !EndsSearch(es[i], b)
    ensures CountTagged(Run(w, s, es).posted, a) + Window(Run(w, s, es), a)
              <= CountTagged(s.posted, a) + Window(s, a)
  {
    CurrentUntilOwnEndOrNewerStart(w, s, es, b);
    SupersededPostsAtMostOnce(w, s, es, a, b);
  }

  /** A search whose loop has stopped while it is still current (its
      projection failed) stays current until a newer search starts: the
      guard then drops every batch of every other search. */
  lemma {:induction false} StoppedCurrentStaysUntilNewerStart(
    w: Projection.Workspace, s: Env, es: seq<Event>, b: string)
    requires s.scanID == Some(b) && b in s.loops && s.loops[b] == Stopped
    requires forall i :: 0 <= i < |es| ==> !es[i].Start?
    ensures Run(w, s, es).scanID == Some(b)
    decreases |es|
  {
    if |es| > 0 {
      if Target(es[0]) == b {
        StoppedIsFinal(s, es[0], b);
      } else {
        StepClearsOnlyOwnScan(w, s, es[0]);
      }
      StoppedCurrentStaysUntilNewerStart(w, Step(w, s, es[0]), es[1..], b);
    }
  }

  /* ---- Scenarios ---- */

  /** Running two traces one after the other is running their concatenation. */
  lemma {:induction false} RunAppend(w: Projection.Workspace, s: Env, es1: seq<Event>, es2: seq<Event>)
    ensures Run(w, s, es1 + es2) == Run(w, Run(w, s, es1), es2)
    decreases |es1|
  {
    if |es1| == 0 {
      assert es1 + es2 == es2;
    } else {
      assert (es1 + es2)[1..] == es1[1..] + es2;
      RunAppend(w, Step(w, s, es1[0]), es1[1..], es2);
    }
  }

  /** The two events of one non-empty batch handled without interleaving:
      the server's response and the completion of its projection. */
  function Delivery(id: string, batch: SearchResults): seq<Event> {
    [Response(id, Some(batch)), Projected(id)]
  }

  /** The batch that ends a stream. */
  const Empty := SearchResults([])

  lemma RunCons(w: Projection.Workspace, s: Env, es: seq<Event>)
    requires |es| > 0
    ensures Run(w, s, es) == Run(w, Step(w, s, es[0]), es[1..])
  {
  }

  lemma RunSingle(w: Projection.Workspace, s: Env, e: Event)
    ensures Run(w, s, [e]) == Step(w, s, e)
  {
    RunCons(w, s, [e]);
    assert [e][1..] == [];
  }

  lemma RunDelivery(w: Projection.Workspace, s: Env, id: string, batch: SearchResults)
    ensures Run(w, s, Delivery(id, batch))
              == Step(w, Step(w, s, Response(id, Some(batch))), Projected(id))
  {
    RunCons(w, s, Delivery(id, batch));
    assert Delivery(id, batch)[1..] == [Projected(id)];
    RunSingle(w, Step(w, s, Response(id, Some(batch))), Projected(id));
  }

  /** A non-empty batch of the search `env.scanID` names, with a client and a
      view: the batch is posted, one poll is sent, and the search waits again. */
  lemma CurrentBatchContinues(w: Projection.Workspace, s: Env, id: string, batch: SearchResults)
    requires s.hasClient && s.viewResolved && s.scanID == Some(id)
    requires id in s.loops && s.loops[id] == AwaitingResponse && |batch.locations| > 0
    ensures Run(w, s, Delivery(id, batch))
              == s.(posted := s.posted + [ResultsMessage(Projection.ViewResultsOf(w, id, batch))],
                    requests := s.requests + [OngoingRequest(id)])
  {
    RunDelivery(w, s, id, batch);
    assert s.loops[id := Projecting(batch)][id := AwaitingResponse] == s.loops;
  }

  /** The empty batch of the search `env.scanID` names, with a client and a
      view: in the one response event it is posted, `env.scanID` is cleared
      and the search stops. */
  lemma CurrentBatchEnds(w: Projection.Workspace, s: Env, id: string)
    requires s.hasClient && s.viewResolved && s.scanID == Some(id)
    requires id in s.loops && s.loops[id] == AwaitingResponse
    ensures Run(w, s, [Response(id, Some(Empty))])
              == s.(scanID := None, loops := s.loops[id := Stopped],
                    posted := s.posted + [ResultsMessage(Projection.ViewResultsOf(w, id, Empty))])
  {
    RunSingle(w, s, Response(id, Some(Empty)));
  }

  /** The first half of `ThreeBatchStream`: the start and two non-empty batches. */
  lemma TwoBatchesAfterStart(w: Projection.Workspace, p: StartParams, b1: SearchResults, b2: SearchResults)
    requires |b1.locations| > 0 && |b2.locations| > 0
    ensures var a := p.scanID;
            Run(w, Init(true, true), [Start(p)] + Delivery(a, b1) + Delivery(a, b2))
              == Env(Some(a), map[a := AwaitingResponse],
                     [SearchRequest(a, p.lspParams), OngoingRequest(a), OngoingRequest(a)],
                     [ResultsMessage(Projection.ViewResultsOf(w, a, b1)), ResultsMessage(Projection.ViewResultsOf(w, a, b2))],
                     true, true)
  {
    var a := p.scanID;
    var t1 := [Start(p)];
    var t2 := t1 + Delivery(a, b1);
    var s0 := Init(true, true);
    var s1 := Step(w, s0, Start(p));
    StartClaimsCurrent(w, s0, p);
    assert s1 == Env(Some(a), map[a := AwaitingResponse], [SearchRequest(a, p.lspParams)], [], true, true);
    RunSingle(w, s0, Start(p));
    var v1 := ResultsMessage(Projection.ViewResultsOf(w, a, b1));
    var s3 := Run(w, s1, Delivery(a, b1));
    CurrentBatchContinues(w, s1, a, b1);
    assert s3 == Env(Some(a), map[a := AwaitingResponse],
                     [SearchRequest(a, p.lspParams), OngoingRequest(a)], [v1], true, true);
    RunAppend(w, s0, t1, Delivery(a, b1));
    CurrentBatchContinues(w, s3, a, b2);
    RunAppend(w, s0, t2, Delivery(a, b2));
  }

  /** A search whose server sends two non-empty batches and then the empty
      one: three posts of the batches as they came (each post carries one
      batch, not the running total), one search request and two polls, and
      `env.scanID` cleared. */
  lemma ThreeBatchStream(w: Projection.Workspace, p: StartParams, b1: SearchResults, b2: SearchResults)
    requires |b1.locations| > 0 && |b2.locations| > 0
    ensures var a := p.scanID;
            var s := Run(w, Init(true, true),
                         [Start(p)] + Delivery(a, b1) + Delivery(a, b2) + [Response(a, Some(Empty))]);
            && s.posted == [ResultsMessage(Projection.ViewResultsOf(w, a, b1)),
                            ResultsMessage(Projection.ViewResultsOf(w, a, b2)),
                            ResultsMessage(Projection.ViewResultsOf(w, a, Empty))]
            && s.requests == [SearchRequest(a, p.lspParams), OngoingRequest(a), OngoingRequest(a)]
            && s.scanID == None
            && a in s.loops && s.loops[a] == Stopped
  {
    var a := p.scanID;
    var t3 := [Start(p)] + Delivery(a, b1) + Delivery(a, b2);
    TwoBatchesAfterStart(w, p, b1, b2);
    var s5 := Run(w, Init(true, true), t3);
    CurrentBatchEnds(w, s5, a);
    RunAppend(w, Init(true, true), t3, [Response(a, Some(Empty))]);
  }

  /** Once the newer search `b` has finished and cleared `env.scanID`, the
      older search `a`'s late batch, empty or not, passes the guard and is
      posted after `b`'s results. */
  lemma StaleBatchAfterNewerFinished(
    w: Projection.Workspace, pa: StartParams, pb: StartParams, late: SearchResults)
    requires pa.scanID != pb.scanID
    ensures var s := Run(w, Init(true, true),
                         [Start(pa), Start(pb), Response(pb.scanID, Some(Empty))] + Delivery(pa.scanID, late));
            && s.posted == [ResultsMessage(Projection.ViewResultsOf(w, pb.scanID, Empty)),
                            ResultsMessage(Projection.ViewResultsOf(w, pa.scanID, late))]
  {
    var a, b := pa.scanID, pb.scanID;
    var es := [Start(pa), Start(pb), Response(b, Some(Empty))];
    var s0 := Init(true, true);
    var s1 := Step(w, s0, Start(pa));
    var s2 := Step(w, s1, Start(pb));
    assert s2.scanID == Some(b) && s2.loops == map[a := AwaitingResponse, b := AwaitingResponse];
    assert s2.posted == [];
    var s3 := Step(w, s2, Response(b, Some(Empty)));
    assert s3.scanID == None && s3.loops == map[a := AwaitingResponse, b := Stopped];
    assert s3.posted == [ResultsMessage(Projection.ViewResultsOf(w, b, Empty))];
    RunCons(w, s0, es);
    RunCons(w, s1, es[1..]);
    assert es[1..][1..] == [Response(b, Some(Empty))];
    RunSingle(w, s2, Response(b, Some(Empty)));
    RunDelivery(w, s3, a, late);
    GuardAdmits(w, s3, a, late);
    var s4 := Step(w, s3, Response(a, Some(late)));
    if |late.locations| > 0 {
      ProjectedBatchPosted(w, s4, a);
    } else {
      assert !Enabled(s4, Projected(a));
    }
    RunAppend(w, s0, es, Delivery(a, late));
  }

  /** The window is real: search `a`'s non-empty batch passes the guard,
      search `b` starts while `a` projects it, and the batch is still posted
      while `env.scanID` names `b`. `a`'s `/semgrep/searchOngoing` goes out
      after `b`'s `/semgrep/search`, and `a`'s loop waits again. */
  lemma BatchPostedAfterNewerStart(
    w: Projection.Workspace, pa: StartParams, pb: StartParams, b1: SearchResults)
    requires pa.scanID != pb.scanID && |b1.locations| > 0
    ensures var a, b := pa.scanID, pb.scanID;
            Run(w, Init(true, true), [Start(pa), Response(a, Some(b1)), Start(pb), Projected(a)])
              == Env(Some(b), map[a := AwaitingResponse, b := AwaitingResponse],
                     [SearchRequest(a, pa.lspParams), SearchRequest(b, pb.lspParams), OngoingRequest(a)],
                     [ResultsMessage(Projection.ViewResultsOf(w, a, b1))],
                     true, true)
  {
    var a, b := pa.scanID, pb.scanID;
    var es := [Start(pa), Response(a, Some(b1)), Start(pb), Projected(a)];
    var s0 := Init(true, true);
    var s1 := Step(w, s0, Start(pa));
    StartClaimsCurrent(w, s0, pa);
    assert s1 == Env(Some(a), map[a := AwaitingResponse], [SearchRequest(a, pa.lspParams)], [], true, true);
    var s2 := Step(w, s1, Response(a, Some(b1)));
    assert s2 == s1.(loops := map[a := Projecting(b1)]);
    var s3 := Step(w, s2, Start(pb));
    StartClaimsCurrent(w, s2, pb);
    assert s3 == Env(Some(b), map[a := Projecting(b1), b := AwaitingResponse],
                     [SearchRequest(a, pa.lspParams), SearchRequest(b, pb.lspParams)], [], true, true);
    assert s3.loops[a := AwaitingResponse] == map[a := AwaitingResponse, b := AwaitingResponse];
    RunCons(w, s0, es);
    RunCons(w, s1, es[1..]);
    RunCons(w, s2, es[1..][1..]);
    assert es[1..][1..][1..] == [Projected(a)];
    RunSingle(w, s3, Projected(a));
  }

  /** A search whose first batch is non-empty and whose projection fails:
      nothing is posted, no poll is sent, the loop stops, and `env.scanID`
      still names the search. */
  lemma FailedProjectionLeavesScanSet(w: Projection.Workspace, p: StartParams, b1: SearchResults)
    requires |b1.locations| > 0
    ensures var a := p.scanID;
            Run(w, Init(true, true), [Start(p), Response(a, Some(b1)), ProjectionFailed(a)])
              == Env(Some(a), map[a := Stopped], [SearchRequest(a, p.lspParams)], [], true, true)
  {
    var a := p.scanID;
    var es := [Start(p), Response(a, Some(b1)), ProjectionFailed(a)];
    var s0 := Init(true, true);
    var s1 := Step(w, s0, Start(p));
    assert s1 == Env(Some(a), map[a := AwaitingResponse], [SearchRequest(a, p.lspParams)], [], true, true);
    var s2 := Step(w, s1, Response(a, Some(b1)));
    assert s2 == s1.(loops := map[a := Projecting(b1)]);
    assert Step(w, s2, ProjectionFailed(a)) == s1.(loops := map[a := Stopped]);
    RunCons(w, s0, es);
    RunCons(w, s1, es[1..]);
    assert es[1..][1..] == [ProjectionFailed(a)];
    RunSingle(w, s2, ProjectionFailed(a));
  }
}

=== FILE: summary.dfy ===
/** The results panel of the webview
    (src/webview-ui/src/components/SearchResults/SearchResults.tsx): the
    "N matches in M files" summary and one entry per file. */
module Summary {
  import opened Results
  import Decimal

  /** The webview's state (declared in `webview-ui/src/types/state.ts`, not
      part of this model): the results it currently shows. */
  datatype State = State(results: ViewResults)

  /** `locations.reduce((acc, result) => acc + result.matches.length, acc)`. */
  function SumFrom(acc: nat, locations: seq<ViewResult>): nat
    decreases |locations|
  {
    if |locations| == 0 then acc else SumFrom(acc + |locations[0].matches|, locations[1..])
  }

  /** `numMatches` (lines 16-19): the fold started at 0. */
  function NumMatches(locations: seq<ViewResult>): nat {
    SumFrom(0, locations)
  }

  /** `numFiles` (line 20). */
  function NumFiles(locations: seq<ViewResult>): nat {
    |locations|
  }

  /** The matches of all files laid end to end, in file order. */
  function AllMatches(locations: seq<ViewResult>): seq<ViewMatch>
  {
    if |locations| == 0 then [] else locations[0].matches + AllMatches(locations[1..])
  }

  lemma {:induction false} SumFromCounts(acc: nat, locations: seq<ViewResult>)
    ensures SumFrom(acc, locations) == acc + |AllMatches(locations)|
    decreases |locations|
  {
    if |locations| > 0 {
      SumFromCounts(acc + |locations[0].matches|, locations[1..]);
    }
  }

  /** `numMatches` counts every match of every file, fixed and dismissed
      ones included. */
  lemma NumMatchesCountsAll(locations: seq<ViewResult>)
    ensures NumMatches(locations) == |AllMatches(locations)|
  {
    SumFromCounts(0, locations);
  }

  lemma {:induction false} AllMatchesAppend(a: seq<ViewResult>, b: seq<ViewResult>)
    ensures AllMatches(a + b) == AllMatches(a) + AllMatches(b)
    decreases |a|
  {
    if |a| == 0 {
      assert a + b == b;
    } else {
      assert (a + b)[1..] == a[1..] + b;
      AllMatchesAppend(a[1..], b);
    }
  }

  /** The count is additive over the files. */
  lemma NumMatchesAppend(a: seq<ViewResult>, b: seq<ViewResult>)
    ensures NumMatches(a + b) == NumMatches(a) + NumMatches(b)
  {
    NumMatchesCountsAll(a + b);
    NumMatchesCountsAll(a);
    NumMatchesCountsAll(b);
    AllMatchesAppend(a, b);
  }

  lemma NumMatchesSingle(r: ViewResult)
    ensures NumMatches([r]) == |r.matches|
  {
    assert [r][1..] == [];
    assert SumFrom(0, [r]) == SumFrom(|r.matches|, []);
  }

  /** The counts ignore the flags: replacing any match of any file by
      another match (the same one with `isFixed` or `isDismissed` set, say)
      changes neither the match count nor the file count. */
  lemma ReplacingMatchKeepsCounts(locations: seq<ViewResult>, i: nat, k: nat, m: ViewMatch)
    requires i < |locations| && k < |locations[i].matches|
    ensures var after := locations[i := locations[i].(matches := locations[i].matches[k := m])];
            && NumMatches(after) == NumMatches(locations)
            && NumFiles(after) == NumFiles(locations)
  {
    var r := locations[i].(matches := locations[i].matches[k := m]);
    var after := locations[i := r];
    assert locations == locations[..i] + [locations[i]] + locations[i + 1..];
    assert after == locations[..i] + [r] + locations[i + 1..];
    NumMatchesAppend(locations[..i] + [locations[i]], locations[i + 1..]);
    NumMatchesAppend(locations[..i], [locations[i]]);
    NumMatchesAppend(locations[..i] + [r], locations[i + 1..]);
    NumMatchesAppend(locations[..i], [r]);
    NumMatchesSingle(r);
    NumMatchesSingle(locations[i]);
  }

  const MatchesIn := " matches in "
  const Files := " files"

  /** The text of line 28. */
  function SummaryText(numMatches: nat, numFiles: nat): string {
    Decimal.NatToString(numMatches) + MatchesIn + Decimal.NatToString(numFiles) + Files
  }

  /** What the component renders: the summary and the entries, one per file
      in file order. */
  datatype Rendering = Rendering(summary: string, entries: seq<ViewResult>)

  /** The component: nothing for an undefined state (lines 22-24), otherwise
      the summary line and one `SearchResultEntry` per location. */
  function Render(state: Option<State>): (r: Option<Rendering>)
    ensures r.None? <==> state.None?
    ensures r.Some? ==>
              var locations := state.value.results.locations;
              && r.value.entries == locations
              && r.value.summary == SummaryText(|AllMatches(locations)|, |locations|)
  {
    match state
    case None => None
    case Some(s) =>
      NumMatchesCountsAll(s.results.locations);
      Some(Rendering(SummaryText(NumMatches(s.results.locations), NumFiles(s.results.locations)),
                     s.results.locations))
  }

  /** With no files the summary reads "0 matches in 0 files". */
  lemma EmptySummary(scanID: string)
    ensures Render(Some(State(ViewResults(scanID, [])))) == Some(Rendering("0 matches in 0 files", []))
  {
    assert Decimal.NatToString(0) == "0";
    assert SummaryText(0, 0) == "0" + " matches in " + "0" + " files" == "0 matches in 0 files";
  }

  /** A digit string followed by a text that does not start with a digit
      splits in one way only. */
  lemma SplitAfterDigits(x: string, t: string, y: string, u: string)
    requires forall i :: 0 <= i < |x| ==> Decimal.IsDigit(x[i])
    requires forall i :: 0 <= i < |y| ==> Decimal.IsDigit(y[i])
    requires |t| > 0 && !Decimal.IsDigit(t[0]) && |u| > 0 && !Decimal.IsDigit(u[0])
    requires x + t == y + u
    ensures x == y && t == u
  {
    var n := if |x| < |y| then |x| else |y|;
    assert Decimal.IsDigit((x + t)[n]) == (n < |x|);
    assert Decimal.IsDigit((y + u)[n]) == (n < |y|);
    assert x == (x + t)[..|x|] == (y + u)[..|y|] == y;
    assert t == (x + t)[|x|..] == (y + u)[|y|..] == u;
  }

  /** The summary can be read back: two different pairs of counts never give
      the same text. */
  lemma SummaryTextInjective(a: nat, b: nat, c: nat, d: nat)
    requires SummaryText(a, b) == SummaryText(c, d)
    ensures a == c && b == d
  {
    var x, y := Decimal.NatToString(a), Decimal.NatToString(c);
    var x', y' := Decimal.NatToString(b), Decimal.NatToString(d);
    assert SummaryText(a, b) == x + (MatchesIn + x' + Files);
    assert SummaryText(c, d) == y + (MatchesIn + y' + Files);
    SplitAfterDigits(x, MatchesIn + x' + Files, y, MatchesIn + y' + Files);
    assert x' + Files == (MatchesIn + x' + Files)[|MatchesIn|..];
    assert y' + Files == (MatchesIn + y' + Files)[|MatchesIn|..];
    SplitAfterDigits(x', Files, y', Files);
    Decimal.NatToStringInjective(a, c);
    Decimal.NatToStringInjective(b, d);
  }
}

=== FILE: webview.dfy ===
/** The extension side of the search webview (src/views/webview.ts): the
    dispatch of messages coming from the webview, and the posting of messages
    to it. Registering the view, its HTML and its CSP are not modelled. */
module Webview {
  import opened Results
  import opened Messages

  /** The search command the dispatch executes. */
  const SearchCommandId := "semgrep.search"

  /** The argument of `semgrep.search` (`SearchParams` of lspExtensions.ts). */
  datatype SearchParams = SearchParams(pattern: string, language: Option<string>, fix: Option<string>)

  /** What the extension does with one message from the webview. */
  datatype Action =
    | Log(prefix: string, message: string)
    | ExecuteCommand(command: string, params: SearchParams)
    | Ignore

  /** `handleMessageFromWebview`: a print message is logged, a search
      message becomes a `semgrep.search` command with the pattern and the fix
      copied and no language, and every other message falls through the
      `switch`, which has no default branch. */
  function HandleMessageFromWebview(data: WebviewToExtension): (a: Action)
    ensures a.Log? <==> data.Command() == PrintCommand
    ensures a.Log? ==> a.message == data.message
    ensures a.ExecuteCommand? <==> data.Command() == SearchCommand
    ensures a.ExecuteCommand? ==>
              && a.command == SearchCommandId
              && a.params == SearchParams(data.pattern, None, data.fix)
    ensures a.Ignore? <==> data.Command() !in {PrintCommand, SearchCommand}
  {
    CommandIdentifiesKind(data, Print(""));
    CommandIdentifiesKind(data, Search("", None));
    match data
    case Print(message) => Log("webview print", message)
    case Search(pattern, fix) => ExecuteCommand(SearchCommandId, SearchParams(pattern, None, fix))
    case Replace(_, _, _) => Ignore
  }

  /** The search message whose dispatch yields `params`, when there is one:
      the dispatch never sets a language. */
  function SearchMessageFor(params: SearchParams): (m: Option<WebviewToExtension>)
    ensures m.Some? <==> params.language.None?
  {
    if params.language.None? then Some(Search(params.pattern, params.fix)) else None
  }

  /** Search messages and the parameters they are dispatched with determine
      each other: no field is lost or invented on the way. */
  lemma SearchDispatchRoundTrip(data: WebviewToExtension, params: SearchParams)
    ensures (HandleMessageFromWebview(data) == ExecuteCommand(SearchCommandId, params))
              == (SearchMessageFor(params) == Some(data))
  {
  }

  /** A `webview/semgrep/replace` message, whatever it carries, matches no
      case of the dispatch and is ignored. */
  lemma ReplaceFallsThrough(uri: string, range: Range, replacement: string)
    ensures HandleMessageFromWebview(Replace(uri, range, replacement)) == Ignore
    ensures Replace(uri, range, replacement).Command() !in {PrintCommand, SearchCommand}
  {
  }

  /** `sendMessageToWebview`: the message is posted when a view has been
      resolved and dropped otherwise; the record of posted messages only
      ever grows at its end. */
  function PostToWebview(viewResolved: bool, posted: seq<ExtensionToWebview>, data: ExtensionToWebview)
    : (posted': seq<ExtensionToWebview>)
    ensures posted <= posted'
    ensures |posted'| == |posted| + (if viewResolved then 1 else 0)
    ensures viewResolved ==> posted'[|posted|] == data
  {
    if viewResolved then posted + [data] else posted
  }
}
